=== FILE: README.md ===
# ScopeChat chat screens — a Dafny model

ScopeChat is a chat front end over a hosted backend (auth, relational tables,
realtime feed). This project models the logic its chat screens carry out on
that backend's answers:

- the **user directory** and its search box: loading the listing, dropping the
  caller, filtering by a case-insensitive substring of the email;
- the **chat resolver**: a lookup-or-create over the `chats` table, with error
  and null outcomes;
- the **message list** (load replaces, each pushed insert appends) and the
  **composer** (guarded send, draft cleared only on success, emoji, attachment);
- the **render rules**: own messages, sender labels, the empty-state placeholder.

Backend calls are parameters. An identity is `Option<User>`. A query answer is
`Reply<T>` (an error, or data that may be null). The chat lookup asks for no
ordering, so the order of its rows is the backend's; the model fixes it to table
order, the order in which rows were inserted. A JavaScript
TypeError is `Outcome.Threw`. An async handler that throws changes no state.
Every handler is one atomic transition.

`components/chat/NavigationSidebar.tsx` is not a sidebar. It is a second copy of
the chat screen: it renders the user list (`ChatListSidebar`) and the
conversation pane (`ChatMainArea`), and it drops the null guards and the email
default of `ChatLayout.tsx`. It also imports itself as the navigation rail
(line 5) and renders that inside its own output (line 163), so as written a
mount recurses without end and none of its handlers run. The model treats the
rail as a separate component and models the handlers as they would run. Module `NavigationSidebar` models it beside module
`ChatLayout`, with lemmas saying where the two copies agree. Both files hold the
same `handleSendMessage`, modelled once in `Composer`.

Modules: `Types` (records and backend answers), `Text` (`trim`, `toLowerCase`,
`includes`), `Seqs` (filter and map, with the order-preserving-subsequence
reading of a filter), `ChatsTable`, `ChatLayout`, `NavigationSidebar`,
`ChatListSidebar`, `ChatMainArea`, `Composer`.

The model follows the code, which:
- matches any chat that touches either party, because the chat lookup is an OR of four single-column tests (see Findings);
- only logs backend errors and shows none of them to the user;
- does not discard a late load for an older selection.

## Model

| member | source | states |
|---|---|---|
| Text.TrimEmptyIffBlank | components/chat/ChatListSidebar.tsx:21 | `query.trim() === ''` holds exactly when every character is JavaScript whitespace |
| Text.IncludesIffOccurs | components/chat/ChatListSidebar.tsx:25 | `includes` finds the needle exactly when it occurs at some position of the email |
| Seqs.FilterIsFilterOf | components/chat/ChatListSidebar.tsx:24-26 | `filter` keeps exactly the positions whose element passes, in their original order |
| ChatLayout.Search | components/chat/ChatLayout.tsx:118-128 | a blank query gives `users` unchanged; any other query gives the order-preserving subsequence whose lowered email includes the lowered, untrimmed query |
| ChatLayout.SearchEffect | components/chat/ChatLayout.tsx:118-128 | the effect re-filters the directory by the current query: a blank query shows every user, any other the order-preserving subsequence whose lowered email includes the lowered query; nothing else changes |
| ChatLayout.EmailOr | components/chat/ChatLayout.tsx:236 | the shown email is never empty: a present, non-empty email is kept, anything else becomes 'Unknown email' |
| ChatLayout.OnSearchChange | components/chat/ChatLayout.tsx:118-132 | typing records the raw query; a blank query shows every user, any other query the order-preserving subsequence of the directory whose lowered email includes the lowered query; nothing else changes |
| ChatLayout.SearchIgnoresCase | components/chat/ChatLayout.tsx:122-124 | two queries that lower to the same text give the same list |
| ChatLayout.SearchForgetsHistory | components/chat/ChatLayout.tsx:118-128 | a search never reads the previous result: two searches in a row equal the last one alone |
| ChatLayout.SpaceInQueryTakesPart | components/chat/ChatLayout.tsx:119-124 | the non-blank query is matched untrimmed: one with a space matches no email without a space |
| ChatLayout.LoadDirectory | components/chat/ChatLayout.tsx:230-237 | the directory keeps exactly the present entries with a non-empty id other than the caller's, in listing order; each keeps its email, or 'Unknown email' when it is missing or empty |
| ChatLayout.OnDirectoryLoaded | components/chat/ChatLayout.tsx:215-242 | no identity, a listing error or a null listing change nothing; otherwise users is the loaded directory and the filtered list is that directory re-filtered by the current query |
| ChatLayout.DirectoryShownWholeWhenQueryBlank | components/chat/ChatLayout.tsx:239-240 | with a blank search box the filtered list equals the loaded directory |
| ChatsTable.Lookup | components/chat/ChatLayout.tsx:165-170 | the lookup rows are the table rows that mention the caller or the target in either column |
| ChatsTable.LookupSymmetric | components/chat/ChatLayout.tsx:168-170 | the lookup condition is symmetric in the two parties, so the rows are the same from either side |
| ChatsTable.LookupAfterCreate | components/chat/ChatLayout.tsx:186-190 | when no row mentioned either party before the insert: after it, the new chat is the only row either party's lookup finds |
| ChatLayout.SelectEffect | components/chat/ChatLayout.tsx:155-199 | no identity or a lookup error does nothing; rows found select the first row returned (table order in the model) with no insert; no rows or null data insert `{sender_id: me, receiver_id: target}` and select it, unless the insert fails |
| ChatLayout.OnChatSelect | components/chat/ChatLayout.tsx:155-199 | a selection only touches the selected chat and the table, which can only grow by one row at its end |
| ChatLayout.ReselectFindsSameChat | components/chat/ChatLayout.tsx:165-183 | when the lookup returns rows rather than null: after a successful selection between A and B, selecting again as A or as B reuses that same chat with no second insert |
| ChatLayout.NullLookupLosesNewChat | components/chat/ChatLayout.tsx:179-198 | counterexample: with table `[c1(u1,u3)]`, u1 selects u2, the lookup returns null data, and c2(u1,u2) is inserted and selected; u1 selecting u2 again is sent back to c1 |
| ChatLayout.NoSecondChatOnceMentioned | components/chat/ChatLayout.tsx:168-170 | when the lookup returns rows rather than null: a party named in any row can never cause another insert, whoever they select |
| ChatLayout.LookupReusesUnrelatedChat | components/chat/ChatLayout.tsx:165-183 | counterexample: u1, who chats with u3, selects u2 and is put back into the u1–u3 chat; the pair rule creates a u1–u2 chat |
| ChatsTable.PairSelectEffect | components/chat/ChatLayout.tsx:165-198 | corrected resolver, with two changes from the code: the lookup is an unordered-pair match, and null lookup data inserts nothing (as in NavigationSidebar.tsx:117). A chat is reused iff the lookup answered with a pair row, and it is the first one; a chat `{me, target}` is created iff the lookup answered with no pair row and the insert succeeded |
| ChatsTable.PairSelectKeepsPairsUnique | components/chat/ChatLayout.tsx:179-190 | corrected resolver (pair lookup, and no insert on null lookup data; the pair lookup alone does not keep it, since null data would insert a duplicate): a table with at most one chat per unordered pair keeps that invariant |
| ChatsTable.PairReverseSelectSameChat | components/chat/ChatLayout.tsx:165-183 | corrected lookup: A selecting B and then B selecting A land on the same chat, with no second insert |
| ChatLayout.LoadMessages | components/chat/ChatLayout.tsx:66-83 | no selected chat or a load error keeps the list; a successful load replaces it with the data, or with [] for null data |
| ChatLayout.PushMessage | components/chat/ChatLayout.tsx:87-97 | with a chat selected, a pushed insert adds exactly one message at the end and keeps the rest in place |
| ChatLayout.HistoryThenArrivals | components/chat/ChatLayout.tsx:66-97 | after a load, the list is the history followed by the pushed messages in arrival order, whatever it held before |
| ChatLayout.OnMessagesLoaded | components/chat/ChatLayout.tsx:66-83 | a load changes only the message list, and a failed load changes nothing |
| ChatLayout.NothingArrivesBeforeSelection | components/chat/ChatLayout.tsx:43-97 | the screen mounts with no chat selected and an empty list, so no load or pushed insert changes it before a chat is chosen |
| ChatLayout.OnMessagePushed | components/chat/ChatLayout.tsx:87-97 | a pushed insert changes only the message list |
| Composer.HandleSend | components/chat/ChatLayout.tsx:134-153 | a write happens iff the draft is not blank, a chat is selected and a user exists; the written content is the untrimmed draft; the draft is cleared iff the write succeeded |
| ChatLayout.OnSend | components/chat/ChatLayout.tsx:134-153 | a send changes only the draft and never the message list; it writes only a non-blank draft, and clears the draft only after a successful write |
| Composer.NoDoubleSend | components/chat/NavigationSidebar.tsx:140-159 | after an accepted send, pressing send again writes nothing |
| Composer.RetryAfterFailureWritesSameRow | components/chat/NavigationSidebar.tsx:150-158 | a rejected send keeps the draft, so a retry writes the same row |
| NavigationSidebar.LoadDirectory | components/chat/NavigationSidebar.tsx:83 | the directory is the order-preserving subsequence of every listed entry (null or id-less ones included) whose id is not the caller's |
| NavigationSidebar.OnDirectoryLoaded | components/chat/NavigationSidebar.tsx:69-87 | no identity, a listing error or a null listing change nothing; otherwise users and the filtered list both become the loaded directory |
| NavigationSidebar.EmaillessUserBreaksSearch | components/chat/NavigationSidebar.tsx:83-86 | counterexample: a listed user without an email stays in the directory, and then every non-blank query makes the filter throw, leaving whatever list the box showed before |
| NavigationSidebar.SelectEffect | components/chat/NavigationSidebar.tsx:93-138 | the same resolver as the main screen, except that null lookup data throws, so nothing is inserted or selected |
| NavigationSidebar.SelectAgreesWithMainScreen | components/chat/NavigationSidebar.tsx:103-121 | when the lookup does not return null, both copies produce the same effect |
| NavigationSidebar.OnChatSelect | components/chat/NavigationSidebar.tsx:93-138 | a selection only touches the selected chat and the table, which can only grow by one row at its end |
| NavigationSidebar.ReselectFindsSameChat | components/chat/NavigationSidebar.tsx:103-121 | when the lookup returns rows rather than null: after a successful selection between A and B, selecting again from either side reuses that chat with no second insert |
| NavigationSidebar.LoadMessages | components/chat/NavigationSidebar.tsx:17-34 | no selected chat or a load error keeps the list; a successful load stores the data as it came, null included |
| NavigationSidebar.PushMessage | components/chat/NavigationSidebar.tsx:39-49 | a pushed insert appends one message to a list, and throws when the list is null |
| NavigationSidebar.MessagesAgreeWithMainScreen | components/chat/NavigationSidebar.tsx:17-49 | with non-null data, loads and pushes give the same list as on the main screen |
| NavigationSidebar.OnMessagesLoaded | components/chat/NavigationSidebar.tsx:17-34 | a load changes only the message list, and a failed load changes nothing |
| NavigationSidebar.NothingArrivesBeforeSelection | components/chat/NavigationSidebar.tsx:10-49 | the screen mounts with no chat selected and an empty, non-null list, so no load or push changes it or throws before a chat is chosen |
| NavigationSidebar.OnMessagePushed | components/chat/NavigationSidebar.tsx:39-49 | a push throws exactly when a chat is selected and the list is null; otherwise it changes only the list |
| NavigationSidebar.OnSend | components/chat/NavigationSidebar.tsx:140-159 | a send changes only the draft; it writes only a non-blank draft, and clears the draft only after a successful write |
| ChatListSidebar.FilterEntries | components/chat/ChatListSidebar.tsx:24-26 | the filter throws iff some entry is null or has no email; otherwise it keeps the matching entries in order |
| ChatListSidebar.HandleSearch | components/chat/ChatListSidebar.tsx:18-29 | the raw query is always recorded; a blank query gives exactly allUsers; otherwise the order-preserving subsequence that matches, or the previous list when the filter throws |
| ChatListSidebar.SearchIdempotent | components/chat/ChatListSidebar.tsx:18-29 | searching the same query twice equals searching it once |
| ChatListSidebar.SearchIgnoresPreviousResult | components/chat/ChatListSidebar.tsx:21-27 | when the filter does not throw, the result depends only on the query and allUsers |
| ChatListSidebar.SearchIgnoresCase | components/chat/ChatListSidebar.tsx:25 | two queries that lower to the same text give the same list |
| ChatListSidebar.FilterEmbedded | components/chat/ChatListSidebar.tsx:24-26 | on validated users the filter does not throw and keeps the users the main screen's email test keeps |
| ChatListSidebar.AgreesWithMainScreenSearch | components/chat/ChatListSidebar.tsx:18-29 | on validated users the box filters exactly as the main screen's search effect |
| ChatListSidebar.MainScreenDirectoryNeverThrows | components/chat/ChatListSidebar.tsx:24-26 | a directory built by the main screen's loader never makes the filter throw |
| ChatMainArea.SenderLabels | components/chat/ChatMainArea.tsx:63-79 | message i is labelled iff it is not the current user's own and it is first or follows a different sender |
| ChatMainArea.LabelOnlyOpensRun | components/chat/ChatMainArea.tsx:75 | in a run of consecutive messages from one sender, no message after the first is labelled |
| ChatMainArea.EveryForeignMessageUnderLabel | components/chat/ChatMainArea.tsx:64-75 | every message from another party has a labelled message at or before it that opens its sender's run |
| ChatMainArea.ShowsConversation | components/chat/ChatMainArea.tsx:62-100 | the list shows iff a chat is selected and the list is non-empty; a selected chat with a null list throws |
| ChatMainArea.LoadedHistoryDecidesPane | components/chat/ChatMainArea.tsx:62-100 | after the main screen's load the conversation shows exactly when the loaded history is non-empty and never throws; after the second copy's load of null data the pane throws |
| ChatMainArea.HandleEmojiClick | components/chat/ChatMainArea.tsx:36-39 | the draft becomes draft ++ emoji and the picker closes |
| ChatMainArea.EmojiMakesDraftSendable | components/chat/ChatMainArea.tsx:36-39 | after a non-whitespace emoji, the next send writes the draft with the emoji at its end |
| ChatMainArea.HandleFileChange | components/chat/ChatMainArea.tsx:42-46 | a change with at least one file selects the first; an empty or null choice changes nothing |
| ChatMainArea.RemoveSelectedFile | components/chat/ChatMainArea.tsx:52-54 | removing clears the attachment and nothing else |
| ChatMainArea.RemoveUndoesFileChange | components/chat/ChatMainArea.tsx:42-54 | removing right after a file change leaves no attachment and the picker as it was |
| ChatMainArea.WiredFileChange | components/chat/MessageInput.tsx:95-103 | as wired in the pane, a change with a chosen file clears the attachment; an empty or null choice changes nothing |
| ChatMainArea.ChosenFileNeverAttached | components/chat/MessageInput.tsx:98-102 | counterexample: choosing one file in the pane leaves no attachment, where `handleFileChange` would attach it |

## Findings

| source | as written | input that shows it | evidently intended | confidence | as-written member | corrected member |
|---|---|---|---|---|---|---|
| components/chat/ChatLayout.tsx:168-170 (same in components/chat/NavigationSidebar.tsx:106-107) | the lookup is an OR of `sender_id = me`, `receiver_id = target`, `sender_id = target`, `receiver_id = me`, so it matches any chat that mentions either party | table `[{c1, sender u1, receiver u3}]`; u1 selects u2 | select the chat joining u1 and u2 in either column order, so here create one; and, as NavigationSidebar.tsx:117 does, insert nothing when the lookup returns null data, since the rows cannot be inspected | high; not executed | ChatLayout.LookupReusesUnrelatedChat | ChatsTable.PairSelectEffect |
| components/chat/MessageInput.tsx:98-102 | the pane's file input calls `removeSelectedFile()` when a file is chosen; the pane's `handleFileChange` (components/chat/ChatMainArea.tsx:42-46) is never passed down | choose one file f in the pane | attach f, as `handleFileChange` does and as `ChatLayout.tsx:466` wires it | medium; not executed | ChatMainArea.WiredFileChange | ChatMainArea.HandleFileChange |
| components/chat/NavigationSidebar.tsx:83 with components/chat/ChatListSidebar.tsx:25 | the directory keeps entries without an email, and the search reads `user.email.toLowerCase()` on every entry | caller u1; listing `[{id: u2, email: undefined}]`; query "a" | give a missing email a default at load time, as `ChatLayout.tsx` does | medium; not executed | NavigationSidebar.EmaillessUserBreaksSearch | ChatListSidebar.MainScreenDirectoryNeverThrows |

Supporting members for the corrected lookup: `ChatsTable.PairSelectKeepsPairsUnique` and
`ChatsTable.PairReverseSelectSameChat`. The corrected directory is `ChatLayout.LoadDirectory`, and
the corrected file input is `ChatMainArea.HandleFileChange`.
The screen models (`ChatLayout.SelectEffect`, `NavigationSidebar.SelectEffect`) keep the
lookup as written, because they describe what the two files do.

## Left out

- The backend itself: auth, tables and the realtime feed are parameters or the abstract `chats` table. The message history's `created_at` ordering is the backend's, so a load takes the history as given.
- The auth redirect effect (`ChatLayout.tsx:55-64`) and the current-user fetch effects: they are router and SDK plumbing. `currentUser` is a field of the view.
- Subscription set-up and teardown (`removeChannel`), React effect scheduling, and load/subscribe races or stale load results: these are concurrency. Each handler is one atomic step, and a push is delivered only while a chat is selected.
- `toLowerCase` changes only the ASCII letters A-Z in the model. Full Unicode case mapping is not modelled.
- Timestamp formatting (HH:mm via date-fns) and the `sender_name` text: the formatter is a foreign library, and the text is not modelled.
- `handleAttachClick`, the emoji picker toggle, the send-button highlight, and the keyboard wiring in `MessageInput.tsx`: these are DOM event wiring. The file input's wiring is modelled as `ChatMainArea.WiredFileChange`.
- ChatMainArea.HandleEmojiClick: models the pane's handler (`ChatMainArea.tsx:36-39`), but `MessageInput.tsx:24-33` never takes it and no emoji picker is rendered, so in the composed pane it is never called.
- ChatMainArea.HandleFileChange: models the pane's handler (`ChatMainArea.tsx:42-46`), which nothing calls; `ChatLayout.tsx`'s identical copy (lines 201-205) is wired at line 466, and the pane's input clears the attachment instead (see Findings).
- ChatLayout.SelectEffect: the lookup asks for no ordering, so which row is "first" is the backend's choice; the model takes the first in table order.
- ChatLayout.ReselectFindsSameChat: covers only lookups that return rows. After a lookup that returned null data the screen inserts even when rows exist, and the next selection can reuse an older chat instead (`ChatLayout.NullLookupLosesNewChat`).
- ChatLayout.NoSecondChatOnceMentioned: covers only lookups that return rows. When the lookup returns null data the screen inserts even though rows mention the caller (`ChatLayout.NullLookupLosesNewChat`).
- ChatsTable.LookupAfterCreate: covers only an insert into a table where no row mentioned either party, which is the only way an answered lookup reaches the insert; after a null-data insert the older rows stay visible.
- NavigationSidebar.SelectEffect: like the main screen's, takes the first row in table order, which the lookup does not promise.
- NavigationSidebar.ReselectFindsSameChat: covers only lookups that return rows; with null data this copy throws and selects nothing.
- NavigationSidebar: the file imports itself (line 5) and renders itself (line 163), so as written mounting it recurses without end; its handlers are modelled as if the rail were a separate component.
- NavigationSidebar.SelectEffect: takes the receiver's id as a string. An id-less directory entry would be interpolated as the text "undefined", and that is not modelled.
- Insert replies come back only as success (with the new id) or failure. `.single()` row-count errors count as failure.
- `ChatLayout.tsx` repeats the pane's render rules (lines 372-385) and the file handlers (lines 201-213). They are identical to `ChatMainArea.tsx`, which is modelled once.
- `lib/db.ts`, `lib/supabase.ts`, `app/auth/page.tsx`, `ChatHeader.tsx` and `components/ui/input.tsx`: storage I/O, client set-up, sign-in calls and markup.

=== FILE: chat_layout.dfy ===
/** The main chat screen: the user directory and its search box, chat selection,
    the message list with its push feed, and the composer's send. */
module ChatLayout {
  import opened Types
  import Text
  import Seqs
  import ChatsTable
  import Composer

  /** The screen's state. `currentUser` comes from a one-off identity fetch and only
      decides which messages render as one's own; every handler asks the backend
      for the identity afresh (the `auth` parameter below). */
  datatype View = View(
    currentUser: Option<User>,
    users: seq<User>,
    filteredUsers: seq<User>,
    searchQuery: string,
    selectedChat: Option<Chat>,
    messages: seq<Message>,
    newMessage: string)

  /** The screen as it mounts. */
  const Initial: View := View(None, [], [], "", None, [], "")

  /** The text shown for a directory entry whose email is missing or empty. */
  const UnknownEmail: string := "Unknown email"

  // ---------------------------------------------------------------- search

  /** The email test of the search box, for a query already lowered. */
  function EmailMatches(needle: string): User -> bool
  {
    (u: User) => Text.Includes(Text.Lower(u.email), needle)
  }

  /** The search effect: a blank query shows the whole directory; any other query
      keeps, in order, the users whose lowered email includes the lowered query,
      surrounding spaces included. */
  function Search(query: string, users: seq<User>): (r: seq<User>)
    ensures Text.IsBlank(query) ==> r == users
    ensures !Text.IsBlank(query) ==> Seqs.IsFilterOf(r, users, EmailMatches(Text.Lower(query)))
  {
    Text.TrimEmptyIffBlank(query);
    if Text.Trim(query) == "" then users
    else
      Seqs.FilterIsFilterOf(users, EmailMatches(Text.Lower(query)));
      Seqs.Filter(users, EmailMatches(Text.Lower(query)))
  }

  /** The search effect re-runs whenever the query or the directory changes. */
  function SearchEffect(v: View): (w: View)
    ensures Text.IsBlank(v.searchQuery) ==> w.filteredUsers == v.users
    ensures !Text.IsBlank(v.searchQuery) ==>
              Seqs.IsFilterOf(w.filteredUsers, v.users, EmailMatches(Text.Lower(v.searchQuery)))
    ensures w.(filteredUsers := v.filteredUsers) == v
  {
    v.(filteredUsers := Search(v.searchQuery, v.users))
  }

  /** Typing in the search box records the raw query and re-filters the directory. */
  function OnSearchChange(v: View, query: string): (w: View)
    ensures w.searchQuery == query
    ensures Text.IsBlank(query) ==> w.filteredUsers == v.users
    ensures !Text.IsBlank(query) ==> Seqs.IsFilterOf(w.filteredUsers, v.users, EmailMatches(Text.Lower(query)))
    ensures forall u :: u in w.filteredUsers ==> u in v.users
    ensures w.(filteredUsers := v.filteredUsers, searchQuery := v.searchQuery) == v
  {
    SearchEffect(v.(searchQuery := query))
  }

  /** Queries that lower to the same text filter alike: the search ignores case. */
  lemma SearchIgnoresCase(q1: string, q2: string, users: seq<User>)
    requires Text.Lower(q1) == Text.Lower(q2)
    ensures Search(q1, users) == Search(q2, users)
  {
    Text.LowerKeepsBlankness(q1);
    Text.LowerKeepsBlankness(q2);
  }

  /** The filter never reads the previous result: searching twice, or narrowing and
      then re-typing, lands where a single search for the last query lands. */
  lemma SearchForgetsHistory(v: View, q1: string, q2: string)
    ensures OnSearchChange(OnSearchChange(v, q1), q2) == OnSearchChange(v, q2)
  {
  }

  /** The query is matched untrimmed: a non-blank query holding a space matches no
      email that lacks one. */
  lemma SpaceInQueryTakesPart(query: string, users: seq<User>)
    requires !Text.IsBlank(query) && ' ' in query
    requires forall i :: 0 <= i < |users| ==> ' ' !in users[i].email
    ensures Search(query, users) == []
  {
    var needle := Text.Lower(query);
    var k :| 0 <= k < |query| && query[k] == ' ';
    assert needle[k] == ' ';
    forall i | 0 <= i < |users| ensures !EmailMatches(needle)(users[i]) {
      var hay := Text.Lower(users[i].email);
      assert ' ' !in hay by {
        forall j | 0 <= j < |hay| ensures hay[j] != ' ' {
          assert users[i].email[j] != ' ';
        }
      }
      Text.MissingCharExcludes(hay, needle, ' ');
    }
    Text.TrimEmptyIffBlank(query);
    Seqs.FilterNone(users, EmailMatches(needle));
  }

  // ------------------------------------------------------------- directory

  /** `user && user.id && user.id !== me`: a present entry with a non-empty id
      other than the caller's. */
  function Admits(me: string): Option<RawUser> -> bool
  {
    (e: Option<RawUser>) => e.Some? && e.value.id.Some? && e.value.id.value != "" && e.value.id.value != me
  }

  /** `user.email || 'Unknown email'`. */
  function EmailOr(email: Option<string>): (s: string)
    ensures s != ""
    ensures email.Some? && email.value != "" ==> s == email.value
  {
    if email.Some? && email.value != "" then email.value else UnknownEmail
  }

  /** The `{ id, email }` record built from an admitted entry. */
  function ToUser(e: Option<RawUser>): User
  {
    if e.Some? && e.value.id.Some? then User(e.value.id.value, EmailOr(e.value.email))
    else User("", UnknownEmail)
  }

  /** The directory built from the backend's user listing: admitted entries only, in
      listing order, each with an id and a non-empty email. */
  function LoadDirectory(me: string, entries: seq<Option<RawUser>>): (us: seq<User>)
    ensures |us| <= |entries|
    ensures forall u :: u in us ==> u.id != "" && u.id != me && u.email != ""
    ensures forall e :: e in entries && Admits(me)(e) ==>
              User(e.value.id.value, EmailOr(e.value.email)) in us
    ensures forall u :: u in us ==> exists e :: e in entries && Admits(me)(e) && u == ToUser(e)
    ensures exists kept :: Seqs.IsFilterOf(kept, entries, Admits(me)) && |us| == |kept|
              && forall k :: 0 <= k < |us| ==> us[k] == ToUser(kept[k])
  {
    DirectoryMembers(me, entries);
    Seqs.MapFilterIsFilterOf(entries, Admits(me), ToUser);
    Seqs.Map(Seqs.Filter(entries, Admits(me)), ToUser)
  }

  /** Which users the mapped, filtered listing holds. */
  lemma DirectoryMembers(me: string, entries: seq<Option<RawUser>>)
    ensures var us := Seqs.Map(Seqs.Filter(entries, Admits(me)), ToUser);
            && (forall u :: u in us ==> u.id != "" && u.id != me && u.email != "")
            && (forall e :: e in entries && Admits(me)(e) ==> User(e.value.id.value, EmailOr(e.value.email)) in us)
            && (forall u :: u in us ==> exists e :: e in entries && Admits(me)(e) && u == ToUser(e))
  {
    var kept := Seqs.Filter(entries, Admits(me));
    var us := Seqs.Map(kept, ToUser);
    Seqs.FilterMembers(entries, Admits(me));
    forall u | u in us ensures exists e :: e in entries && Admits(me)(e) && u == ToUser(e) {
      var k :| 0 <= k < |us| && us[k] == u;
      assert kept[k] in kept;
    }
    forall e | e in entries && Admits(me)(e) ensures User(e.value.id.value, EmailOr(e.value.email)) in us {
      var k :| 0 <= k < |kept| && kept[k] == e;
      assert us[k] == ToUser(e);
    }
  }

  /** `fetchAvailableUsers`: without an identity, on a listing error or on a null
      listing nothing changes; otherwise the directory and the filtered list are both
      set to the loaded directory, and the search effect then re-filters it by the
      current query. */
  function OnDirectoryLoaded(v: View, auth: Option<User>, reply: Reply<seq<Option<RawUser>>>): (w: View)
    ensures auth.None? || reply.Failed? || reply == Returned(None) ==> w == v
    ensures auth.Some? && reply.Returned? && reply.data.Some? ==>
              && w.users == LoadDirectory(auth.value.id, reply.data.value)
              && w.filteredUsers == Search(v.searchQuery, w.users)
              && w.(users := v.users, filteredUsers := v.filteredUsers) == v
  {
    if auth.None? then v
    else match reply
      case Failed => v
      case Returned(None) => v
      case Returned(Some(entries)) =>
        var us := LoadDirectory(auth.value.id, entries);
        SearchEffect(v.(users := us, filteredUsers := us))
  }

  /** With the search box still blank, the loaded directory is shown whole. */
  lemma DirectoryShownWholeWhenQueryBlank(v: View, auth: Option<User>, entries: seq<Option<RawUser>>)
    requires auth.Some? && Text.IsBlank(v.searchQuery)
    ensures OnDirectoryLoaded(v, auth, Returned(Some(entries))).filteredUsers
         == LoadDirectory(auth.value.id, entries)
  {
  }

  // ----------------------------------------------------------- chat select

  /** `handleChatSelect`: without an identity or on a lookup error nothing happens;
      if the four-way lookup returns rows the first is selected; if it returns no
      rows, or null, the chat `{ sender_id: me, receiver_id: target }` is inserted
      and selected, unless the insert fails. */
  function SelectEffect(chats: seq<Chat>, auth: Option<User>, target: string,
                        fate: ChatsTable.LookupFate, insert: InsertReply): (e: ChatsTable.Effect)
    ensures auth.None? || fate.Errored? ==> e.Unchanged?
    ensures e.Reuse? <==> auth.Some? && fate.Answered? && ChatsTable.Lookup(chats, auth.value.id, target) != []
    ensures e.Reuse? ==> e.chat == ChatsTable.Lookup(chats, auth.value.id, target)[0]
    ensures e.Create? <==> (auth.Some? && insert.Inserted? &&
                            (fate.AnsweredNull? || (fate.Answered? && ChatsTable.Lookup(chats, auth.value.id, target) == [])))
    ensures e.Create? ==> e.chat == Chat(insert.newId, auth.value.id, target)
  {
    if auth.None? then ChatsTable.Unchanged
    else
      var me := auth.value.id;
      match ChatsTable.LookupReply(chats, me, target, fate)
      case Failed => ChatsTable.Unchanged
      case Returned(rows) =>
        if rows.Some? && |rows.value| > 0 then ChatsTable.Reuse(rows.value[0])
        else match insert
          case InsertFailed => ChatsTable.Unchanged
          case Inserted(id) => ChatsTable.Create(Chat(id, me, target))
  }

  /** A selection only ever touches the selected chat and the table. */
  function OnChatSelect(v: View, chats: seq<Chat>, auth: Option<User>, target: string,
                        fate: ChatsTable.LookupFate, insert: InsertReply): (r: (View, seq<Chat>))
    ensures |chats| <= |r.1| <= |chats| + 1 && r.1[..|chats|] == chats
    ensures r.0.(selectedChat := v.selectedChat) == v
    ensures r.0.selectedChat != v.selectedChat ==> r.0.selectedChat.Some? && r.0.selectedChat.value in r.1
  {
    var s := ChatsTable.Apply(ChatsTable.ChatState(v.selectedChat, chats),
                              SelectEffect(chats, auth, target, fate, insert));
    (v.(selectedChat := s.selected), s.chats)
  }

  /** Once a selection between `a` and `b` whose lookup returned rows has succeeded,
      selecting again from either side finds a row at once, namely the chat just
      selected, and inserts nothing. "First" is the first row in table order. */
  lemma ReselectFindsSameChat(s: ChatsTable.ChatState, a: User, b: User, insert: InsertReply, again: InsertReply)
    requires !SelectEffect(s.chats, Some(a), b.id, ChatsTable.Answered, insert).Unchanged?
    ensures var t := ChatsTable.Apply(s, SelectEffect(s.chats, Some(a), b.id, ChatsTable.Answered, insert));
            && SelectEffect(t.chats, Some(a), b.id, ChatsTable.Answered, again) == ChatsTable.Reuse(t.selected.value)
            && SelectEffect(t.chats, Some(b), a.id, ChatsTable.Answered, again) == ChatsTable.Reuse(t.selected.value)
  {
    var e := SelectEffect(s.chats, Some(a), b.id, ChatsTable.Answered, insert);
    if e.Create? {
      ChatsTable.LookupAfterCreate(s.chats, a.id, b.id, e.chat);
    } else {
      ChatsTable.LookupSymmetric(s.chats, a.id, b.id);
    }
  }

  /** Null lookup data falls through to the insert even when rows exist, and the
      next selection then reuses the older row rather than the chat just created. */
  lemma NullLookupLosesNewChat()
    ensures var chats := [Chat("c1", "u1", "u3")];
            var me := User("u1", "a@x.com");
            var e := SelectEffect(chats, Some(me), "u2", ChatsTable.AnsweredNull, Inserted("c2"));
            && e == ChatsTable.Create(Chat("c2", "u1", "u2"))
            && SelectEffect(chats + [e.chat], Some(me), "u2", ChatsTable.Answered, Inserted("c3"))
               == ChatsTable.Reuse(Chat("c1", "u1", "u3"))
  {
    var chats := [Chat("c1", "u1", "u3")];
    var c2 := Chat("c2", "u1", "u2");
    Seqs.FilterAppend(chats, [c2], ChatsTable.TouchesEitherOf("u1", "u2"));
  }

  /** What the four-way lookup really guarantees, when it returns rows rather than
      null: a party that appears in any row can never cause an insert again, whoever
      they select. */
  lemma NoSecondChatOnceMentioned(chats: seq<Chat>, a: User, b: string, insert: InsertReply, i: int)
    requires 0 <= i < |chats| && (chats[i].senderId == a.id || chats[i].receiverId == a.id)
    ensures !SelectEffect(chats, Some(a), b, ChatsTable.Answered, insert).Create?
  {
    assert chats[i] in ChatsTable.Lookup(chats, a.id, b);
  }

  /** The four-way lookup is not a pair match: a caller who already chats with a
      third party is put back into that chat when selecting someone new, and no chat
      with the new party is ever created. The pair rule creates it. */
  lemma LookupReusesUnrelatedChat()
    ensures var chats := [Chat("c1", "u1", "u3")];
            var e := SelectEffect(chats, Some(User("u1", "a@x.com")), "u2", ChatsTable.Answered, Inserted("c2"));
            && e == ChatsTable.Reuse(Chat("c1", "u1", "u3"))
            && !ChatsTable.IsPairChat(e.chat, "u1", "u2")
            && ChatsTable.PairSelectEffect(chats, Some(User("u1", "a@x.com")), "u2", ChatsTable.Answered, Inserted("c2"))
               == ChatsTable.Create(Chat("c2", "u1", "u2"))
  {
  }

  // ---------------------------------------------------------- message list

  /** The load half of the message effect: with no chat selected nothing happens; a
      load error keeps the list; a successful load replaces it with the history, or
      with the empty list when the data is null. */
  function LoadMessages(selected: Option<Chat>, messages: seq<Message>, reply: Reply<seq<Message>>): (r: seq<Message>)
    ensures selected.None? || reply.Failed? ==> r == messages
    ensures selected.Some? && reply.Returned? ==> r == (if reply.data.Some? then reply.data.value else [])
  {
    if selected.None? then messages
    else match reply
      case Failed => messages
      case Returned(data) => if data.Some? then data.value else []
  }

  /** A pushed insert: the feed exists only while a chat is selected, and each event
      appends its row at the end, unsorted. */
  function PushMessage(selected: Option<Chat>, messages: seq<Message>, m: Message): (r: seq<Message>)
    ensures selected.None? ==> r == messages
    ensures selected.Some? ==> |r| == |messages| + 1 && r[..|messages|] == messages && r[|messages|] == m
  {
    if selected.None? then messages else messages + [m]
  }

  /** A run of pushed inserts, in arrival order. */
  function Deliver(selected: Option<Chat>, messages: seq<Message>, arrivals: seq<Message>): seq<Message>
    decreases |arrivals|
  {
    if |arrivals| == 0 then messages
    else Deliver(selected, PushMessage(selected, messages, arrivals[0]), arrivals[1..])
  }

  /** The list shows the loaded history followed by the pushed rows in arrival
      order, whatever it held before the load. */
  lemma {:induction false} HistoryThenArrivals(c: Chat, before: seq<Message>, history: seq<Message>, arrivals: seq<Message>)
    ensures Deliver(Some(c), LoadMessages(Some(c), before, Returned(Some(history))), arrivals) == history + arrivals
  {
    DeliverAppends(c, history, arrivals);
  }

  lemma {:induction false} DeliverAppends(c: Chat, messages: seq<Message>, arrivals: seq<Message>)
    ensures Deliver(Some(c), messages, arrivals) == messages + arrivals
    decreases |arrivals|
  {
    if |arrivals| > 0 {
      DeliverAppends(c, messages + [arrivals[0]], arrivals[1..]);
      assert messages + [arrivals[0]] + arrivals[1..] == messages + arrivals;
    }
  }

  function OnMessagesLoaded(v: View, reply: Reply<seq<Message>>): (w: View)
    ensures w.(messages := v.messages) == v
    ensures reply.Failed? ==> w == v
  {
    v.(messages := LoadMessages(v.selectedChat, v.messages, reply))
  }

  function OnMessagePushed(v: View, m: Message): (w: View)
    ensures w.(messages := v.messages) == v
    ensures v.selectedChat.Some? ==> w.messages == v.messages + [m]
  {
    v.(messages := PushMessage(v.selectedChat, v.messages, m))
  }

  /** On the screen as it mounts no chat is selected, so neither a message load nor
      a pushed insert changes anything until a chat is chosen. */
  lemma NothingArrivesBeforeSelection(reply: Reply<seq<Message>>, m: Message)
    ensures Initial.selectedChat.None? && Initial.messages == []
    ensures OnMessagesLoaded(Initial, reply) == Initial
    ensures OnMessagePushed(Initial, m) == Initial
  {
  }

  // ------------------------------------------------------------------ send

  /** The send never touches the list: the sent row arrives through the feed. */
  function OnSend(v: View, auth: Option<User>, reply: WriteReply): (r: (View, Option<MessageRow>))
    ensures r.0.(newMessage := v.newMessage) == v
    ensures r.1.Some? ==> r.1.value.content == v.newMessage && !Text.IsBlank(v.newMessage)
    ensures r.0.newMessage != v.newMessage ==> r.1.Some? && reply.Written? && r.0.newMessage == ""
  {
    var step := Composer.HandleSend(v.newMessage, v.selectedChat, auth, reply);
    (v.(newMessage := step.draft), step.write)
  }
}

=== FILE: chat_list_sidebar.dfy ===
/** The user list's search box. It filters whatever list its parent hands it, and
    reads `user.email` on every entry without a guard. */
module ChatListSidebar {
  import opened Types
  import Text
  import Seqs
  import ChatLayout

  /** The box's own query and the filtered list it hands back to its parent. */
  datatype SearchBox = SearchBox(searchQuery: string, filteredUsers: seq<Option<RawUser>>)

  /** Reading `user.email.toLowerCase()` succeeds only on a present entry with an email. */
  predicate HasEmail(e: Option<RawUser>)
  {
    e.Some? && e.value.email.Some?
  }

  /** The email test, for a query already lowered. */
  function EntryMatches(needle: string): Option<RawUser> -> bool
  {
    (e: Option<RawUser>) => HasEmail(e) && Text.Includes(Text.Lower(e.value.email.value), needle)
  }

  /** `allUsers.filter(...)`: throws as soon as it meets an entry without an email,
      otherwise keeps the matching entries in order. */
  function FilterEntries(entries: seq<Option<RawUser>>, needle: string): (r: Outcome<seq<Option<RawUser>>>)
    ensures r.Threw? <==> exists i :: 0 <= i < |entries| && !HasEmail(entries[i])
    ensures r.Done? ==> r.value == Seqs.Filter(entries, EntryMatches(needle))
  {
    if |entries| == 0 then Done([])
    else if !HasEmail(entries[0]) then Threw
    else match FilterEntries(entries[1..], needle)
      case Threw =>
        assert forall i :: 0 <= i < |entries| - 1 ==> entries[1..][i] == entries[i + 1];
        Threw
      case Done(rest) =>
        assert forall i :: 1 <= i < |entries| ==> entries[i] == entries[1..][i - 1];
        Done(if EntryMatches(needle)(entries[0]) then [entries[0]] + rest else rest)
  }

  /** `handleSearch`: the raw query is always recorded; a blank query shows the whole
      list; otherwise the list is filtered by the lowered, untrimmed query, and if
      the filter throws the previous filtered list stays on screen. */
  function HandleSearch(box: SearchBox, query: string, allUsers: seq<Option<RawUser>>): (b: SearchBox)
    ensures b.searchQuery == query
    ensures Text.IsBlank(query) ==> b.filteredUsers == allUsers
    ensures !Text.IsBlank(query) && (forall i :: 0 <= i < |allUsers| ==> HasEmail(allUsers[i])) ==>
              Seqs.IsFilterOf(b.filteredUsers, allUsers, EntryMatches(Text.Lower(query)))
    ensures !Text.IsBlank(query) && (exists i :: 0 <= i < |allUsers| && !HasEmail(allUsers[i])) ==>
              b.filteredUsers == box.filteredUsers
  {
    Text.TrimEmptyIffBlank(query);
    if Text.Trim(query) == "" then SearchBox(query, allUsers)
    else match FilterEntries(allUsers, Text.Lower(query))
      case Threw => SearchBox(query, box.filteredUsers)
      case Done(filtered) =>
        Seqs.FilterIsFilterOf(allUsers, EntryMatches(Text.Lower(query)));
        SearchBox(query, filtered)
  }

  /** Searching for the same query twice changes nothing the second time. */
  lemma SearchIdempotent(box: SearchBox, query: string, allUsers: seq<Option<RawUser>>)
    ensures HandleSearch(HandleSearch(box, query, allUsers), query, allUsers) == HandleSearch(box, query, allUsers)
  {
  }

  /** The result depends only on the query and the full list, never on what was
      shown before, unless the filter throws and leaves the stale list up. */
  lemma SearchIgnoresPreviousResult(box1: SearchBox, box2: SearchBox, query: string, allUsers: seq<Option<RawUser>>)
    requires Text.IsBlank(query) || FilterEntries(allUsers, Text.Lower(query)).Done?
    ensures HandleSearch(box1, query, allUsers) == HandleSearch(box2, query, allUsers)
  {
  }

  /** Queries that lower to the same text give the same result. */
  lemma SearchIgnoresCase(box: SearchBox, q1: string, q2: string, allUsers: seq<Option<RawUser>>)
    requires Text.Lower(q1) == Text.Lower(q2)
    ensures HandleSearch(box, q1, allUsers).filteredUsers == HandleSearch(box, q2, allUsers).filteredUsers
  {
    Text.LowerKeepsBlankness(q1);
    Text.LowerKeepsBlankness(q2);
    Text.TrimEmptyIffBlank(q1);
    Text.TrimEmptyIffBlank(q2);
  }

  /** A validated user as a list entry. */
  function Embed(u: User): Option<RawUser>
  {
    Some(RawUser(Some(u.id), Some(u.email)))
  }

  /** On a list of validated users the filter never throws and keeps the users the
      main screen's email test keeps. */
  lemma FilterEmbedded(users: seq<User>, needle: string)
    ensures FilterEntries(Seqs.Map(users, Embed), needle)
         == Done(Seqs.Map(Seqs.Filter(users, ChatLayout.EmailMatches(needle)), Embed))
  {
    var entries := Seqs.Map(users, Embed);
    assert forall i :: 0 <= i < |entries| ==> HasEmail(entries[i]);
    Seqs.FilterMap(users, Embed, EntryMatches(needle), ChatLayout.EmailMatches(needle));
  }

  /** On a list of validated users the box filters exactly as the main screen's
      own search effect does. */
  lemma AgreesWithMainScreenSearch(box: SearchBox, query: string, users: seq<User>)
    ensures HandleSearch(box, query, Seqs.Map(users, Embed)).filteredUsers == Seqs.Map(ChatLayout.Search(query, users), Embed)
  {
    Text.TrimEmptyIffBlank(query);
    FilterEmbedded(users, Text.Lower(query));
  }

  /** A directory built by the main screen's loader never makes the box throw,
      whatever the backend's listing held. */
  lemma MainScreenDirectoryNeverThrows(me: string, listing: seq<Option<RawUser>>, needle: string)
    ensures FilterEntries(Seqs.Map(ChatLayout.LoadDirectory(me, listing), Embed), needle).Done?
  {
    var entries := Seqs.Map(ChatLayout.LoadDirectory(me, listing), Embed);
    assert forall i :: 0 <= i < |entries| ==> HasEmail(entries[i]);
  }
}

=== FILE: chat_main_area.dfy ===
/** The conversation pane: which messages render as one's own, where a sender
    label appears, when the placeholder shows, and the composer's emoji and file
    controls. */
module ChatMainArea {
  import opened Types
  import Text
  import Composer
  import ChatLayout
  import NavigationSidebar

  /** The pane's own state. */
  datatype Panel = Panel(showEmojiPicker: bool, selectedFile: Option<FileRef>)

  /** `msg.sender_id === currentUser?.id`: with no current user nothing is own. */
  predicate IsOwn(m: Message, currentUser: Option<User>)
  {
    currentUser.Some? && m.senderId == currentUser.value.id
  }

  /** The label above message `i`: only on another party's message that opens the
      list or follows a message from a different sender. */
  predicate ShowsSenderLabel(messages: seq<Message>, i: int, currentUser: Option<User>)
    requires 0 <= i < |messages|
  {
    !IsOwn(messages[i], currentUser) && (i == 0 || messages[i - 1].senderId != messages[i].senderId)
  }

  /** The label flags of the whole list, as the render computes them in one pass. */
  method SenderLabels(messages: seq<Message>, currentUser: Option<User>) returns (flags: seq<bool>)
    ensures |flags| == |messages|
    ensures forall i :: 0 <= i < |messages| ==> (flags[i] <==> ShowsSenderLabel(messages, i, currentUser))
  {
    flags := [];
    var previous: Option<string> := None;
    var i := 0;
    while i < |messages|
      invariant 0 <= i <= |messages|
      invariant |flags| == i
      invariant forall k :: 0 <= k < i ==> (flags[k] <==> ShowsSenderLabel(messages, k, currentUser))
      invariant previous == if i == 0 then None else Some(messages[i - 1].senderId)
    {
      var m := messages[i];
      var own := currentUser.Some? && m.senderId == currentUser.value.id;
      var opensRun := previous.None? || previous.value != m.senderId;
      flags := flags + [!own && opensRun];
      previous := Some(m.senderId);
      i := i + 1;
    }
  }

  /** Within a run of consecutive messages from one sender, no message after the
      first carries a label. */
  lemma LabelOnlyOpensRun(messages: seq<Message>, i: int, j: int, currentUser: Option<User>)
    requires 0 <= i < j < |messages|
    requires forall k :: i <= k <= j ==> messages[k].senderId == messages[i].senderId
    ensures !ShowsSenderLabel(messages, j, currentUser)
  {
  }

  /** Every message from another party sits under a label: the nearest label at or
      before it opens the run of that sender that contains it. */
  lemma {:induction false} EveryForeignMessageUnderLabel(messages: seq<Message>, k: int, currentUser: Option<User>)
    requires 0 <= k < |messages| && !IsOwn(messages[k], currentUser)
    ensures exists i :: 0 <= i <= k && ShowsSenderLabel(messages, i, currentUser)
              && forall t :: i <= t <= k ==> messages[t].senderId == messages[k].senderId
    decreases k
  {
    if ShowsSenderLabel(messages, k, currentUser) {
      assert forall t :: k <= t <= k ==> messages[t].senderId == messages[k].senderId;
    } else {
      assert messages[k - 1].senderId == messages[k].senderId;
      EveryForeignMessageUnderLabel(messages, k - 1, currentUser);
      var i :| 0 <= i <= k - 1 && ShowsSenderLabel(messages, i, currentUser)
               && forall t :: i <= t <= k - 1 ==> messages[t].senderId == messages[k - 1].senderId;
      assert forall t :: i <= t <= k ==> messages[t].senderId == messages[k].senderId;
    }
  }

  /** The list renders only when a chat is selected and the list is non-empty; the
      placeholder renders otherwise. A selected chat with a null list throws. */
  function ShowsConversation(selectedChat: Option<Chat>, messages: Option<seq<Message>>): (r: Outcome<bool>)
    ensures r.Threw? <==> selectedChat.Some? && messages.None?
    ensures r == Done(true) <==> selectedChat.Some? && messages.Some? && |messages.value| > 0
  {
    if selectedChat.None? then Done(false)
    else if messages.None? then Threw
    else Done(|messages.value| > 0)
  }

  /** A load decides the pane: after the main screen's load the conversation shows
      exactly when the history is non-empty and never throws, while the second
      copy's load of null data makes the pane throw. */
  lemma LoadedHistoryDecidesPane(chat: Chat, before: seq<Message>, history: Option<seq<Message>>)
    ensures ShowsConversation(Some(chat), Some(ChatLayout.LoadMessages(Some(chat), before, Returned(history))))
         == Done(history.Some? && |history.value| > 0)
    ensures ShowsConversation(Some(chat), NavigationSidebar.LoadMessages(Some(chat), Some(before), Returned(history))).Threw?
        <==> history.None?
  {
  }

  /** Picking an emoji appends it to the draft and closes the picker. */
  function HandleEmojiClick(draft: string, panel: Panel, emoji: string): (r: (string, Panel))
    ensures |r.0| == |draft| + |emoji| && r.0[..|draft|] == draft && r.0[|draft|..] == emoji
    ensures r.1 == panel.(showEmojiPicker := false)
  {
    (draft + emoji, panel.(showEmojiPicker := false))
  }

  /** An emoji that is not whitespace makes any draft sendable: the next send writes
      the draft with the emoji at its end. */
  lemma EmojiMakesDraftSendable(draft: string, panel: Panel, emoji: string, chat: Chat, user: User, reply: WriteReply)
    requires !Text.IsBlank(emoji)
    ensures var d := HandleEmojiClick(draft, panel, emoji).0;
            Composer.HandleSend(d, Some(chat), Some(user), reply).write == Some(MessageRow(chat.id, user.id, draft + emoji))
  {
  }

  /** A file change selects the first chosen file and ignores an empty choice. */
  function HandleFileChange(panel: Panel, files: Option<seq<FileRef>>): (p: Panel)
    ensures files.Some? && |files.value| > 0 ==> p.selectedFile == Some(files.value[0])
    ensures !(files.Some? && |files.value| > 0) ==> p == panel
    ensures p.showEmojiPicker == panel.showEmojiPicker
  {
    if files.Some? && |files.value| > 0 then panel.(selectedFile := Some(files.value[0])) else panel
  }

  /** Removing the attachment clears it and nothing else. */
  function RemoveSelectedFile(panel: Panel): (p: Panel)
    ensures p.selectedFile.None? && p.showEmojiPicker == panel.showEmojiPicker
  {
    panel.(selectedFile := None)
  }

  /** Removing right after choosing a file returns the pane to no attachment. */
  lemma RemoveUndoesFileChange(panel: Panel, files: Option<seq<FileRef>>)
    ensures RemoveSelectedFile(HandleFileChange(panel, files)) == panel.(selectedFile := None)
  {
  }

  /** The pane's file input as its input component wires it: a change with a
      chosen file calls `removeSelectedFile`, so choosing a file clears the
      attachment, and an empty choice changes nothing. */
  function WiredFileChange(panel: Panel, files: Option<seq<FileRef>>): (p: Panel)
    ensures files.Some? && |files.value| > 0 ==> p == RemoveSelectedFile(panel)
    ensures !(files.Some? && |files.value| > 0) ==> p == panel
  {
    if files.Some? && |files.value| > 0 then RemoveSelectedFile(panel) else panel
  }

  /** Counterexample: choosing a file in the pane never attaches it, where the
      handler the pane defines attaches the first chosen file. */
  lemma ChosenFileNeverAttached(panel: Panel, f: FileRef)
    ensures WiredFileChange(panel, Some([f])).selectedFile.None?
    ensures HandleFileChange(panel, Some([f])).selectedFile == Some(f)
    ensures WiredFileChange(panel, Some([f])) != HandleFileChange(panel, Some([f]))
  {
  }
}

=== FILE: chats_table.dfy ===
/** The `chats` table as the two screens query it, and the effect a chat selection
    has on the selected chat and on the table. */
module ChatsTable {
  import opened Types
  import Seqs

  /** The lookup filter of a chat selection: an OR of four single-column
      conditions, so any chat that mentions either party matches. */
  predicate TouchesEither(c: Chat, current: string, target: string)
  {
    c.senderId == current || c.receiverId == target || c.senderId == target || c.receiverId == current
  }

  /** The filter as a value, so that every use of it is the same function. */
  function TouchesEitherOf(current: string, target: string): Chat -> bool
  {
    c => TouchesEither(c, current, target)
  }

  /** The rows the lookup returns, in table order. */
  function Lookup(chats: seq<Chat>, current: string, target: string): (rows: seq<Chat>)
    ensures forall c :: c in rows <==> c in chats && TouchesEither(c, current, target)
  {
    Seqs.FilterMembers(chats, TouchesEitherOf(current, target));
    Seqs.Filter(chats, TouchesEitherOf(current, target))
  }

  /** How the backend answers the lookup, whose rows the table determines. */
  datatype LookupFate = Answered | AnsweredNull | Errored

  /** The `{ data, error }` the lookup produces for a given fate. */
  function LookupReply(chats: seq<Chat>, current: string, target: string, fate: LookupFate): (r: Reply<seq<Chat>>)
    ensures r.Failed? <==> fate.Errored?
    ensures r.Returned? && r.data.Some? ==> r.data.value == Lookup(chats, current, target)
    ensures r.Returned? ==> (r.data.None? <==> fate.AnsweredNull?)
  {
    match fate
    case Answered => Returned(Some(Lookup(chats, current, target)))
    case AnsweredNull => Returned(None)
    case Errored => Failed
  }

  /** What a chat selection does: nothing, select an existing row, or insert a row
      and select it. */
  datatype Effect = Unchanged | Reuse(chat: Chat) | Create(chat: Chat)

  /** The selected chat together with the backend's `chats` table. */
  datatype ChatState = ChatState(selected: Option<Chat>, chats: seq<Chat>)

  /** Carry out an effect: a reuse only changes the selection; a create appends
      the new row to the table and selects it. */
  function Apply(s: ChatState, e: Effect): (t: ChatState)
    ensures e.Unchanged? ==> t == s
    ensures !e.Unchanged? ==> t.selected == Some(e.chat)
    ensures t.chats == if e.Create? then s.chats + [e.chat] else s.chats
  {
    match e
    case Unchanged => s
    case Reuse(c) => s.(selected := Some(c))
    case Create(c) => ChatState(Some(c), s.chats + [c])
  }

  /** The lookup filter is symmetric in the two parties, so the lookup from either
      side returns the same rows in the same order. */
  lemma LookupSymmetric(chats: seq<Chat>, a: string, b: string)
    ensures Lookup(chats, a, b) == Lookup(chats, b, a)
  {
    Seqs.FilterCongruent(chats, TouchesEitherOf(a, b), TouchesEitherOf(b, a));
  }

  /** Right after a chat `c` between `a` and `b` is appended to a table in which no
      row mentions either party, the lookup from either side finds exactly `c`. */
  lemma LookupAfterCreate(chats: seq<Chat>, a: string, b: string, c: Chat)
    requires Lookup(chats, a, b) == []
    requires c.senderId == a
    ensures Lookup(chats + [c], a, b) == [c]
    ensures Lookup(chats + [c], b, a) == [c]
  {
    Seqs.FilterAppend(chats, [c], TouchesEitherOf(a, b));
    LookupSymmetric(chats + [c], a, b);
  }

  /** A chat whose two columns hold the two parties, in either order. */
  predicate IsPairChat(c: Chat, a: string, b: string)
  {
    (c.senderId == a && c.receiverId == b) || (c.senderId == b && c.receiverId == a)
  }

  function IsPairChatOf(a: string, b: string): Chat -> bool
  {
    c => IsPairChat(c, a, b)
  }

  /** The lookup as an unordered-pair match. */
  function LookupPair(chats: seq<Chat>, a: string, b: string): (rows: seq<Chat>)
    ensures forall c :: c in rows <==> c in chats && IsPairChat(c, a, b)
  {
    Seqs.FilterMembers(chats, IsPairChatOf(a, b));
    Seqs.Filter(chats, IsPairChatOf(a, b))
  }

  /** No two rows of the table join the same two parties. */
  ghost predicate UniquePairs(chats: seq<Chat>)
  {
    forall i, j :: 0 <= i < j < |chats| ==> !IsPairChat(chats[j], chats[i].senderId, chats[i].receiverId)
  }

  /** A chat selection under the unordered-pair lookup: reuse the first pair row,
      otherwise insert one. A lookup without rows to inspect (an error or null data)
      inserts nothing, since it cannot tell whether the pair already has a chat. */
  function PairSelectEffect(chats: seq<Chat>, auth: Option<User>, target: string, fate: LookupFate, insert: InsertReply): (e: Effect)
    ensures !e.Unchanged? ==> auth.Some? && IsPairChat(e.chat, auth.value.id, target)
    ensures e.Create? ==> LookupPair(chats, auth.value.id, target) == [] && e.chat.senderId == auth.value.id
    ensures e.Reuse? ==> e.chat in chats
    ensures e.Reuse? <==> auth.Some? && fate.Answered? && LookupPair(chats, auth.value.id, target) != []
    ensures e.Reuse? ==> e.chat == LookupPair(chats, auth.value.id, target)[0]
    ensures e.Create? <==> (auth.Some? && fate.Answered? && insert.Inserted? &&
                            LookupPair(chats, auth.value.id, target) == [])
    ensures e.Create? ==> e.chat == Chat(insert.newId, auth.value.id, target)
  {
    if auth.None? then Unchanged
    else
      var me := auth.value.id;
      match fate
      case Errored | AnsweredNull => Unchanged
      case Answered =>
        var rows := LookupPair(chats, me, target);
        if |rows| > 0 then Reuse(rows[0])
        else match insert
          case InsertFailed => Unchanged
          case Inserted(id) => Create(Chat(id, me, target))
  }

  /** The pair lookup is symmetric in the two parties. */
  lemma LookupPairSymmetric(chats: seq<Chat>, a: string, b: string)
    ensures LookupPair(chats, a, b) == LookupPair(chats, b, a)
  {
    Seqs.FilterCongruent(chats, IsPairChatOf(a, b), IsPairChatOf(b, a));
  }

  /** The pair rule keeps the table free of duplicate pairs: it inserts only when no
      row joins the two parties. */
  lemma PairSelectKeepsPairsUnique(s: ChatState, auth: Option<User>, target: string, fate: LookupFate, insert: InsertReply)
    requires UniquePairs(s.chats)
    ensures UniquePairs(Apply(s, PairSelectEffect(s.chats, auth, target, fate, insert)).chats)
  {
    var e := PairSelectEffect(s.chats, auth, target, fate, insert);
    if e.Create? {
      var t := s.chats + [e.chat];
      forall i | 0 <= i < |s.chats| ensures !IsPairChat(e.chat, s.chats[i].senderId, s.chats[i].receiverId) {
        if IsPairChat(e.chat, s.chats[i].senderId, s.chats[i].receiverId) {
          assert IsPairChat(s.chats[i], auth.value.id, target);
        }
      }
      assert forall j :: 0 <= j < |s.chats| ==> t[j] == s.chats[j];
    }
  }

  /** Under the pair rule, selecting `b` as `a` and then `a` as `b` lands on the same
      chat, and the second selection inserts nothing. */
  lemma PairReverseSelectSameChat(s: ChatState, a: User, b: User, insert: InsertReply, again: InsertReply)
    requires !PairSelectEffect(s.chats, Some(a), b.id, Answered, insert).Unchanged?
    ensures var t := Apply(s, PairSelectEffect(s.chats, Some(a), b.id, Answered, insert));
            PairSelectEffect(t.chats, Some(b), a.id, Answered, again) == Reuse(t.selected.value)
  {
    var e := PairSelectEffect(s.chats, Some(a), b.id, Answered, insert);
    LookupPairSymmetric(s.chats, a.id, b.id);
    if e.Create? {
      Seqs.FilterAppend(s.chats, [e.chat], IsPairChatOf(b.id, a.id));
    }
  }
}

=== FILE: composer.dfy ===
/** The send handler. Both screens carry the same `handleSendMessage`, so it is
    modelled once here. */
module Composer {
  import opened Types
  import Text

  /** What a send does: the row it asks the backend to insert (if any) and the
      draft left in the input afterwards. */
  datatype SendStep = SendStep(write: Option<MessageRow>, draft: string)

  /** `handleSendMessage`: a blank draft, a missing chat or a missing user means no
      write at all; otherwise the untrimmed draft is written, and the draft is
      cleared only when the backend accepts the row. */
  function HandleSend(draft: string, selected: Option<Chat>, auth: Option<User>, reply: WriteReply): (r: SendStep)
    ensures r.write.Some? <==> !Text.IsBlank(draft) && selected.Some? && auth.Some?
    ensures r.write.Some? ==> r.write.value == MessageRow(selected.value.id, auth.value.id, draft)
    ensures r.draft == "" <==> draft == "" || (r.write.Some? && reply.Written?)
    ensures r.draft != "" ==> r.draft == draft
  {
    Text.TrimEmptyIffBlank(draft);
    if Text.Trim(draft) == "" || selected.None? || auth.None? then SendStep(None, draft)
    else
      var row := MessageRow(selected.value.id, auth.value.id, draft);
      match reply
      case WriteFailed => SendStep(Some(row), draft)
      case Written => SendStep(Some(row), "")
  }

  /** A send the backend accepted leaves nothing to send: pressing send again
      writes no second row, whatever the backend would answer. */
  lemma NoDoubleSend(draft: string, selected: Option<Chat>, auth: Option<User>, again: WriteReply)
    requires HandleSend(draft, selected, auth, Written).write.Some?
    ensures HandleSend(HandleSend(draft, selected, auth, Written).draft, selected, auth, again).write.None?
  {
  }

  /** A rejected send can be retried with the very same row. */
  lemma RetryAfterFailureWritesSameRow(draft: string, selected: Option<Chat>, auth: Option<User>, again: WriteReply)
    requires HandleSend(draft, selected, auth, WriteFailed).write.Some?
    ensures HandleSend(HandleSend(draft, selected, auth, WriteFailed).draft, selected, auth, again).write
         == HandleSend(draft, selected, auth, WriteFailed).write
  {
  }
}

=== FILE: navigation_sidebar.dfy ===
/** The second copy of the chat screen, whose file is named after the navigation
    rail. It renders the user list and the conversation pane, and it imports itself
    as the rail and renders that inside its own output, so as written a mount
    recurses without end. The handlers are modelled as if the rail were a separate
    component. They follow the main screen's but without its null guards and
    without the email default. */
module NavigationSidebar {
  import opened Types
  import Text
  import Seqs
  import ChatsTable
  import Composer
  import ChatLayout
  import ChatListSidebar

  /** The screen's state. The directory holds the listing's entries as they came,
      and `messages` is null (`None`) once a load hands back null data. */
  datatype View = View(
    currentUser: Option<User>,
    users: seq<Option<RawUser>>,
    filteredUsers: seq<Option<RawUser>>,
    selectedChat: Option<Chat>,
    messages: Option<seq<Message>>,
    newMessage: string)

  const Initial: View := View(None, [], [], None, Some([]), "")

  // ------------------------------------------------------------- directory

  /** `user?.id !== me`: a null entry and an entry without an id both pass. */
  function Keeps(me: string): Option<RawUser> -> bool
  {
    (e: Option<RawUser>) => !(e.Some? && e.value.id == Some(me))
  }

  /** The directory: every listed entry except the caller's own, in listing order,
      with nothing validated. */
  function LoadDirectory(me: string, entries: seq<Option<RawUser>>): (us: seq<Option<RawUser>>)
    ensures Seqs.IsFilterOf(us, entries, Keeps(me))
    ensures forall e :: e in us ==> e in entries && !(e.Some? && e.value.id == Some(me))
  {
    Seqs.FilterIsFilterOf(entries, Keeps(me));
    Seqs.Filter(entries, Keeps(me))
  }

  /** `fetchAvailableUsers`: without an identity or on a listing error nothing
      changes, and a null listing throws before anything is set; otherwise the
      directory and the filtered list both become the loaded directory. */
  function OnDirectoryLoaded(v: View, auth: Option<User>, reply: Reply<seq<Option<RawUser>>>): (w: View)
    ensures auth.None? || reply.Failed? || reply == Returned(None) ==> w == v
    ensures auth.Some? && reply.Returned? && reply.data.Some? ==>
              && w.users == LoadDirectory(auth.value.id, reply.data.value)
              && w.filteredUsers == w.users
              && w.(users := v.users, filteredUsers := v.filteredUsers) == v
  {
    if auth.None? then v
    else match reply
      case Failed => v
      case Returned(None) => v
      case Returned(Some(entries)) =>
        var us := LoadDirectory(auth.value.id, entries);
        v.(users := us, filteredUsers := us)
  }

  /** The directory keeps entries the search box cannot read: one listed user
      without an email makes every non-blank search throw and leaves the list as it
      was. */
  lemma EmaillessUserBreaksSearch(q: string, box: ChatListSidebar.SearchBox)
    requires !Text.IsBlank(q)
    ensures var dir := LoadDirectory("u1", [Some(RawUser(Some("u2"), None))]);
            && dir == [Some(RawUser(Some("u2"), None))]
            && ChatListSidebar.FilterEntries(dir, Text.Lower(q)).Threw?
            && ChatListSidebar.HandleSearch(box, q, dir).filteredUsers == box.filteredUsers
  {
    var e := Some(RawUser(Some("u2"), None));
    assert [e][1..] == [];
    var dir := LoadDirectory("u1", [e]);
    assert dir == [e];
    assert !ChatListSidebar.HasEmail(dir[0]);
  }

  // ----------------------------------------------------------- chat select

  /** `handleChatSelect`: the main screen's resolver, except that null lookup data
      is read without a guard and throws, so nothing is inserted or selected. */
  function SelectEffect(chats: seq<Chat>, auth: Option<User>, target: string,
                        fate: ChatsTable.LookupFate, insert: InsertReply): (e: ChatsTable.Effect)
    ensures auth.None? || fate.Errored? || fate.AnsweredNull? ==> e.Unchanged?
    ensures e.Reuse? <==> auth.Some? && fate.Answered? && ChatsTable.Lookup(chats, auth.value.id, target) != []
    ensures e.Reuse? ==> e.chat == ChatsTable.Lookup(chats, auth.value.id, target)[0]
    ensures e.Create? <==> (auth.Some? && insert.Inserted? && fate.Answered? &&
                            ChatsTable.Lookup(chats, auth.value.id, target) == [])
    ensures e.Create? ==> e.chat == Chat(insert.newId, auth.value.id, target)
  {
    if auth.None? then ChatsTable.Unchanged
    else
      var me := auth.value.id;
      match ChatsTable.LookupReply(chats, me, target, fate)
      case Failed => ChatsTable.Unchanged
      case Returned(None) => ChatsTable.Unchanged
      case Returned(Some(rows)) =>
        if |rows| > 0 then ChatsTable.Reuse(rows[0])
        else match insert
          case InsertFailed => ChatsTable.Unchanged
          case Inserted(id) => ChatsTable.Create(Chat(id, me, target))
  }

  /** The two copies resolve alike whenever the lookup does not hand back null. */
  lemma SelectAgreesWithMainScreen(chats: seq<Chat>, auth: Option<User>, target: string,
                                   fate: ChatsTable.LookupFate, insert: InsertReply)
    requires !fate.AnsweredNull?
    ensures SelectEffect(chats, auth, target, fate, insert) == ChatLayout.SelectEffect(chats, auth, target, fate, insert)
  {
  }

  /** A selection only ever touches the selected chat and the table. */
  function OnChatSelect(v: View, chats: seq<Chat>, auth: Option<User>, target: string,
                        fate: ChatsTable.LookupFate, insert: InsertReply): (r: (View, seq<Chat>))
    ensures |chats| <= |r.1| <= |chats| + 1 && r.1[..|chats|] == chats
    ensures r.0.(selectedChat := v.selectedChat) == v
    ensures r.0.selectedChat != v.selectedChat ==> r.0.selectedChat.Some? && r.0.selectedChat.value in r.1
  {
    var s := ChatsTable.Apply(ChatsTable.ChatState(v.selectedChat, chats),
                              SelectEffect(chats, auth, target, fate, insert));
    (v.(selectedChat := s.selected), s.chats)
  }

  /** After a successful selection between `a` and `b`, selecting again from either
      side reuses the chat just selected and inserts nothing. */
  lemma ReselectFindsSameChat(s: ChatsTable.ChatState, a: User, b: User, insert: InsertReply, again: InsertReply)
    requires !SelectEffect(s.chats, Some(a), b.id, ChatsTable.Answered, insert).Unchanged?
    ensures var t := ChatsTable.Apply(s, SelectEffect(s.chats, Some(a), b.id, ChatsTable.Answered, insert));
            && SelectEffect(t.chats, Some(a), b.id, ChatsTable.Answered, again) == ChatsTable.Reuse(t.selected.value)
            && SelectEffect(t.chats, Some(b), a.id, ChatsTable.Answered, again) == ChatsTable.Reuse(t.selected.value)
  {
    var t := ChatsTable.Apply(s, SelectEffect(s.chats, Some(a), b.id, ChatsTable.Answered, insert));
    SelectAgreesWithMainScreen(s.chats, Some(a), b.id, ChatsTable.Answered, insert);
    SelectAgreesWithMainScreen(t.chats, Some(a), b.id, ChatsTable.Answered, again);
    SelectAgreesWithMainScreen(t.chats, Some(b), a.id, ChatsTable.Answered, again);
    ChatLayout.ReselectFindsSameChat(s, a, b, insert, again);
  }

  // ---------------------------------------------------------- message list

  /** The load half of the message effect: the data is stored as it came, null
      included. */
  function LoadMessages(selected: Option<Chat>, messages: Option<seq<Message>>, reply: Reply<seq<Message>>): (r: Option<seq<Message>>)
    ensures selected.None? || reply.Failed? ==> r == messages
    ensures selected.Some? && reply.Returned? ==> r == reply.data
  {
    if selected.None? then messages
    else match reply
      case Failed => messages
      case Returned(data) => data
  }

  /** A pushed insert spreads the previous list into a new one, which throws when
      the list is null. */
  function PushMessage(selected: Option<Chat>, messages: Option<seq<Message>>, m: Message): (r: Outcome<Option<seq<Message>>>)
    ensures selected.None? ==> r == Done(messages)
    ensures selected.Some? && messages.None? ==> r.Threw?
    ensures selected.Some? && messages.Some? ==> r == Done(Some(messages.value + [m]))
  {
    if selected.None? then Done(messages)
    else if messages.None? then Threw
    else Done(Some(messages.value + [m]))
  }

  /** With non-null data the list evolves as on the main screen. */
  lemma MessagesAgreeWithMainScreen(selected: Option<Chat>, messages: seq<Message>, history: seq<Message>, m: Message)
    ensures LoadMessages(selected, Some(messages), Returned(Some(history)))
         == Some(ChatLayout.LoadMessages(selected, messages, Returned(Some(history))))
    ensures PushMessage(selected, Some(messages), m) == Done(Some(ChatLayout.PushMessage(selected, messages, m)))
  {
  }

  function OnMessagesLoaded(v: View, reply: Reply<seq<Message>>): (w: View)
    ensures w.(messages := v.messages) == v
    ensures reply.Failed? ==> w == v
  {
    v.(messages := LoadMessages(v.selectedChat, v.messages, reply))
  }

  function OnMessagePushed(v: View, m: Message): (r: Outcome<View>)
    ensures r.Done? ==> r.value.(messages := v.messages) == v
    ensures r.Threw? <==> v.selectedChat.Some? && v.messages.None?
  {
    match PushMessage(v.selectedChat, v.messages, m)
    case Threw => Threw
    case Done(ms) => Done(v.(messages := ms))
  }

  /** On the screen as it mounts no chat is selected and the list is empty rather
      than null, so neither a load nor a push changes anything or throws. */
  lemma NothingArrivesBeforeSelection(reply: Reply<seq<Message>>, m: Message)
    ensures Initial.selectedChat.None? && Initial.messages == Some([])
    ensures OnMessagesLoaded(Initial, reply) == Initial
    ensures OnMessagePushed(Initial, m) == Done(Initial)
  {
  }

  // ------------------------------------------------------------------ send

  function OnSend(v: View, auth: Option<User>, reply: WriteReply): (r: (View, Option<MessageRow>))
    ensures r.0.(newMessage := v.newMessage) == v
    ensures r.1.Some? ==> r.1.value.content == v.newMessage && !Text.IsBlank(v.newMessage)
    ensures r.0.newMessage != v.newMessage ==> r.1.Some? && reply.Written? && r.0.newMessage == ""
  {
    var step := Composer.HandleSend(v.newMessage, v.selectedChat, auth, reply);
    (v.(newMessage := step.draft), step.write)
  }
}

=== FILE: seqs.dfy ===
/** `Array.prototype.filter` and `Array.prototype.map` on immutable sequences, with
    the order-preserving-subsequence reading of a filter stated on its own. */
module Seqs {

  /** `s.filter(p)`. */
  function Filter<T>(s: seq<T>, p: T -> bool): (r: seq<T>)
    ensures |r| <= |s|
  {
    if |s| == 0 then []
    else if p(s[0]) then [s[0]] + Filter(s[1..], p)
    else Filter(s[1..], p)
  }

  /** The filter holds exactly the elements of `s` that satisfy `p`. */
  lemma {:induction false} FilterMembers<T>(s: seq<T>, p: T -> bool)
    ensures forall x :: x in Filter(s, p) <==> x in s && p(x)
  {
    if |s| > 0 {
      FilterMembers(s[1..], p);
      assert s == [s[0]] + s[1..];
    }
  }

  /** `s.map(f)`. */
  function Map<T, U>(s: seq<T>, f: T -> U): (r: seq<U>)
    ensures |r| == |s|
    ensures forall i :: 0 <= i < |s| ==> r[i] == f(s[i])
  {
    seq(|s|, i requires 0 <= i < |s| => f(s[i]))
  }

  /** `idx` lists strictly increasing positions of `s`, and `r` reads `s` at them. */
  ghost predicate PicksAt<T>(r: seq<T>, s: seq<T>, idx: seq<int>)
  {
    && |idx| == |r|
    && (forall k :: 0 <= k < |idx| ==> 0 <= idx[k] < |s| && r[k] == s[idx[k]])
    && (forall k, l :: 0 <= k < l < |idx| ==> idx[k] < idx[l])
  }

  /** `r` is the order-preserving subsequence of `s` made of exactly the positions
      whose element satisfies `p`. */
  ghost predicate IsFilterOf<T>(r: seq<T>, s: seq<T>, p: T -> bool)
  {
    exists idx :: PicksAt(r, s, idx) && (forall i :: 0 <= i < |s| ==> (p(s[i]) <==> i in idx))
  }

  /** The positions `Filter(s, p)` keeps, each shifted by `base`. */
  function Kept<T>(s: seq<T>, p: T -> bool, base: int): (idx: seq<int>)
    ensures |idx| == |Filter(s, p)|
    ensures forall k :: 0 <= k < |idx| ==> base <= idx[k] < base + |s|
  {
    if |s| == 0 then []
    else if p(s[0]) then [base] + Kept(s[1..], p, base + 1)
    else Kept(s[1..], p, base + 1)
  }

  /** A position is kept exactly when its element satisfies the predicate. */
  lemma {:induction false} KeptMembership<T>(s: seq<T>, p: T -> bool, base: int)
    ensures forall i :: 0 <= i < |s| ==> (p(s[i]) <==> base + i in Kept(s, p, base))
  {
    if |s| > 0 {
      var tail := Kept(s[1..], p, base + 1);
      var whole := Kept(s, p, base);
      KeptMembership(s[1..], p, base + 1);
      if p(s[0]) {
        assert whole == [base] + tail;
      } else {
        assert whole == tail;
      }
      forall i | 0 <= i < |s| ensures p(s[i]) <==> base + i in whole {
        if i == 0 {
          assert base !in tail;
        } else {
          assert s[i] == s[1..][i - 1];
          assert base + i in whole <==> base + i in tail;
        }
      }
    }
  }

  /** `Filter` reads `s` at the kept positions. */
  lemma {:induction false} KeptReads<T>(s: seq<T>, p: T -> bool, base: int)
    ensures forall k :: 0 <= k < |Kept(s, p, base)| ==> Filter(s, p)[k] == s[Kept(s, p, base)[k] - base]
  {
    if |s| > 0 {
      var tail := Kept(s[1..], p, base + 1);
      var rest := Filter(s[1..], p);
      KeptReads(s[1..], p, base + 1);
      assert |tail| == |rest|;
      forall k | 0 <= k < |tail| ensures rest[k] == s[tail[k] - base] {
        assert base + 1 <= tail[k] < base + |s|;
        assert rest[k] == s[1..][tail[k] - (base + 1)];
      }
      var whole, kept := Kept(s, p, base), Filter(s, p);
      if p(s[0]) {
        assert whole == [base] + tail;
        assert kept == [s[0]] + rest;
        forall k | 1 <= k < |whole| ensures kept[k] == s[whole[k] - base] {
          assert whole[k] == tail[k - 1] && kept[k] == rest[k - 1];
        }
      } else {
        assert whole == tail;
        assert kept == rest;
      }
    }
  }

  /** The kept positions strictly increase. */
  lemma {:induction false} KeptIncreases<T>(s: seq<T>, p: T -> bool, base: int)
    ensures forall k, l :: 0 <= k < l < |Kept(s, p, base)| ==> Kept(s, p, base)[k] < Kept(s, p, base)[l]
  {
    if |s| > 0 {
      KeptIncreases(s[1..], p, base + 1);
    }
  }

  /** `Filter` keeps exactly the satisfying positions, in their original order. */
  lemma FilterIsFilterOf<T>(s: seq<T>, p: T -> bool)
    ensures IsFilterOf(Filter(s, p), s, p)
  {
    var r, idx := Filter(s, p), Kept(s, p, 0);
    KeptMembership(s, p, 0);
    KeptReads(s, p, 0);
    KeptIncreases(s, p, 0);
    forall k | 0 <= k < |idx| ensures 0 <= idx[k] < |s| && r[k] == s[idx[k]] {
      assert r[k] == s[idx[k] - 0];
    }
    assert PicksAt(r, s, idx);
    forall i | 0 <= i < |s| ensures p(s[i]) <==> i in idx {
      assert p(s[i]) <==> 0 + i in idx;
    }
  }

  /** Mapping a filter keeps the filter's order: the result reads `f` of an
      order-preserving selection of exactly the satisfying elements. */
  lemma MapFilterIsFilterOf<T, U>(s: seq<T>, p: T -> bool, f: T -> U)
    ensures exists kept :: IsFilterOf(kept, s, p) && |Map(Filter(s, p), f)| == |kept|
              && forall k :: 0 <= k < |Map(Filter(s, p), f)| ==> Map(Filter(s, p), f)[k] == f(kept[k])
  {
    FilterIsFilterOf(s, p);
    var kept := Filter(s, p);
    assert IsFilterOf(kept, s, p) && |Map(kept, f)| == |kept|
           && forall k :: 0 <= k < |Map(kept, f)| ==> Map(kept, f)[k] == f(kept[k]);
  }

  /** Filtering a concatenation filters each part. */
  lemma {:induction false} FilterAppend<T>(a: seq<T>, b: seq<T>, p: T -> bool)
    ensures Filter(a + b, p) == Filter(a, p) + Filter(b, p)
  {
    if |a| > 0 {
      assert (a + b)[1..] == a[1..] + b;
      FilterAppend(a[1..], b, p);
    } else {
      assert a + b == b;
    }
  }

  /** Two predicates that agree on every element of `s` filter it alike. */
  lemma {:induction false} FilterCongruent<T>(s: seq<T>, p: T -> bool, q: T -> bool)
    requires forall i :: 0 <= i < |s| ==> p(s[i]) == q(s[i])
    ensures Filter(s, p) == Filter(s, q)
  {
    if |s| > 0 {
      FilterCongruent(s[1..], p, q);
    }
  }

  /** A filter whose predicate fails everywhere returns nothing. */
  lemma FilterNone<T>(s: seq<T>, p: T -> bool)
    requires forall i :: 0 <= i < |s| ==> !p(s[i])
    ensures Filter(s, p) == []
  {
  }

  /** Filtering after mapping filters the originals by what their images satisfy. */
  lemma {:induction false} FilterMap<T, U>(s: seq<T>, f: T -> U, p: U -> bool, q: T -> bool)
    requires forall i :: 0 <= i < |s| ==> q(s[i]) == p(f(s[i]))
    ensures Filter(Map(s, f), p) == Map(Filter(s, q), f)
  {
    if |s| > 0 {
      var m := Map(s, f);
      assert m[1..] == Map(s[1..], f);
      FilterMap(s[1..], f, p, q);
      assert q(s[0]) == p(m[0]);
      if q(s[0]) {
        assert Filter(m, p) == [m[0]] + Filter(Map(s[1..], f), p);
        assert Filter(s, q) == [s[0]] + Filter(s[1..], q);
        assert Map([s[0]] + Filter(s[1..], q), f) == [f(s[0])] + Map(Filter(s[1..], q), f);
      } else {
        assert Filter(m, p) == Filter(Map(s[1..], f), p);
        assert Filter(s, q) == Filter(s[1..], q);
      }
    }
  }
}

=== FILE: text.dfy ===
/** The three string operations of JavaScript the screens rely on: `trim`,
    `toLowerCase` and `includes`. */
module Text {

  /** The characters `String.prototype.trim` removes: the WhiteSpace and
      LineTerminator productions of ECMAScript (section 12.2 and 12.3 of ECMA-262). */
  predicate IsJsWhitespace(c: char)
  {
    || c == '\t' || c == '\n' || c == '\U{B}' || c == '\U{C}' || c == '\r' || c == ' '
    || c == '\U{A0}' || c == '\U{1680}' || ('\U{2000}' <= c <= '\U{200A}')
    || c == '\U{2028}' || c == '\U{2029}' || c == '\U{202F}' || c == '\U{205F}'
    || c == '\U{3000}' || c == '\U{FEFF}'
  }

  /** Every character of `s` is whitespace (the empty string included). */
  predicate IsBlank(s: string)
  {
    forall i :: 0 <= i < |s| ==> IsJsWhitespace(s[i])
  }

  /** `s` with its leading whitespace removed. */
  function TrimStart(s: string): (r: string)
    ensures |r| <= |s| && r == s[|s| - |r|..]
    ensures forall i :: 0 <= i < |s| - |r| ==> IsJsWhitespace(s[i])
    ensures |r| > 0 ==> !IsJsWhitespace(r[0])
  {
    if |s| > 0 && IsJsWhitespace(s[0]) then TrimStart(s[1..]) else s
  }

  /** `s` with its trailing whitespace removed. */
  function TrimEnd(s: string): (r: string)
    ensures |r| <= |s| && r == s[..|r|]
    ensures forall i :: |r| <= i < |s| ==> IsJsWhitespace(s[i])
    ensures |r| > 0 ==> !IsJsWhitespace(r[|r| - 1])
  {
    if |s| > 0 && IsJsWhitespace(s[|s| - 1]) then TrimEnd(s[..|s| - 1]) else s
  }

  /** `s.trim()`. */
  function Trim(s: string): string
  {
    TrimEnd(TrimStart(s))
  }

  /** `q.trim() === ""` holds exactly when every character of `q` is whitespace. */
  lemma TrimEmptyIffBlank(q: string)
    ensures Trim(q) == "" <==> IsBlank(q)
  {
  }

  /** `toLowerCase` on one character; only the ASCII letters A-Z change. */
  function LowerChar(c: char): (l: char)
  {
    if 'A' <= c <= 'Z' then (c as int - 'A' as int + 'a' as int) as char else c
  }

  /** `s.toLowerCase()`, character by character. */
  function Lower(s: string): (r: string)
    ensures |r| == |s|
    ensures forall i :: 0 <= i < |s| ==> r[i] == LowerChar(s[i])
  {
    seq(|s|, i requires 0 <= i < |s| => LowerChar(s[i]))
  }

  /** Whitespace is not a letter: a string and its lower-case form are blank together. */
  lemma LowerKeepsBlankness(s: string)
    ensures IsBlank(Lower(s)) <==> IsBlank(s)
  {
  }

  /** `needle` occurs in `hay` starting at index `i`. */
  predicate OccursAt(hay: string, needle: string, i: int)
  {
    0 <= i && i + |needle| <= |hay| && hay[i..i + |needle|] == needle
  }

  /** `hay.includes(needle)`, scanning start positions left to right. */
  function Includes(hay: string, needle: string): bool
    decreases |hay|
  {
    |needle| <= |hay| && (needle <= hay || Includes(hay[1..], needle))
  }

  /** `Includes` finds an occurrence exactly when one exists. */
  lemma {:induction false} IncludesIffOccurs(hay: string, needle: string)
    ensures Includes(hay, needle) <==> exists i :: OccursAt(hay, needle, i)
    decreases |hay|
  {
    if |needle| > |hay| {
      assert forall i :: !OccursAt(hay, needle, i);
    } else if needle <= hay {
      assert OccursAt(hay, needle, 0);
    } else {
      IncludesIffOccurs(hay[1..], needle);
      if Includes(hay[1..], needle) {
        var i :| OccursAt(hay[1..], needle, i);
        assert hay[1..][i..i + |needle|] == hay[i + 1..i + 1 + |needle|];
        assert OccursAt(hay, needle, i + 1);
      } else {
        forall i | OccursAt(hay, needle, i) ensures false {
          if i > 0 {
            assert hay[1..][i - 1..i - 1 + |needle|] == hay[i..i + |needle|];
            assert OccursAt(hay[1..], needle, i - 1);
          }
        }
      }
    }
  }

  /** A needle holding a character the hay lacks never occurs in it. */
  lemma {:induction false} MissingCharExcludes(hay: string, needle: string, c: char)
    requires c in needle && c !in hay
    ensures !Includes(hay, needle)
  {
    IncludesIffOccurs(hay, needle);
  }
}

=== FILE: types.dfy ===
/** The records the chat screens hold, and the shapes of the hosted backend's answers.
    Every entity is owned by the backend; the screens keep transient copies only. */
module Types {

  datatype Option<+T> = None | Some(value: T)

  /** A directory entry after the screen has validated it: an id and an email. */
  datatype User = User(id: string, email: string)

  /** An entry exactly as the administrative user listing hands it over: the id and
      the email may be missing, and the entry itself may be null (`None` in a list). */
  datatype RawUser = RawUser(id: Option<string>, email: Option<string>)

  /** A row of the `chats` table. */
  datatype Chat = Chat(id: string, senderId: string, receiverId: string)

  /** A row of the `messages` table. */
  datatype Message = Message(id: string, chatId: string, senderId: string, content: string, createdAt: string)

  /** The row a send asks the backend to insert into `messages`. */
  datatype MessageRow = MessageRow(chatId: string, senderId: string, content: string)

  /** A file picked in the composer; only its name is ever shown. */
  datatype FileRef = FileRef(name: string)

  /** The `{ data, error }` pair of a backend query: an error, or data that may be null. */
  datatype Reply<+T> = Failed | Returned(data: Option<T>)

  /** How the backend answers an insert that returns the new row. */
  datatype InsertReply = InsertFailed | Inserted(newId: string)

  /** How the backend answers an insert whose returned row is ignored. */
  datatype WriteReply = WriteFailed | Written

  /** Whether a piece of JavaScript ran to completion or threw a TypeError
      (property access on null or undefined). */
  datatype Outcome<+T> = Done(value: T) | Threw
}
